=== FILE: README.md ===
# lmtyas secret custodian — a Dafny model

This project models the core of the lmtyas one-time-secret service that guards its RSA key
material, in Dafny 4.11:

- **`RsaKeys`, the key custodian** (`src/rsa_functions.rs`). It holds an optional private key and
  an optional public key. `read_from_files` loads both from PEM files with an administrator-supplied
  passphrase and installs both or neither. It rejects a public modulus under 256 bytes, and it
  zeroizes its unprotected copy of the passphrase on every path after the copy is made.
  `encrypt_str` is PKCS#1 encryption into a modulus-sized buffer, returned as base64.
  `decrypt_str` checks, in this order: key present, base64 valid, decryption succeeds, UTF-8 valid.
  It then strips NUL characters from both ends.
- **`ApplicationConfiguration`** (`src/configuration.rs`):
  - `get_domain` on the configured `fqdn`;
  - the start-up checks that both RSA key files exist;
  - the state built at start-up;
  - `load_rsa_keys` and `clear_rsa_password` over the passphrase cell and the key cell;
  - the imprint link `Target` names;
  - the TLS cipher allow-list `CIPHER_LIST`.

The modules are:

- `Results`: `Option`, `Result`, `Outcome`.
- `Text`: NUL trimming, first-occurrence search, split/join on a character.
- `Errors`: one tag per distinct error message.
- `Io`: the file system as `read`/`present` functions.
- `Crypto`: the uninterpreted primitives, and the laws the round trip assumes of them.
- `RsaFunctions`: the custodian.
- `RsaProperties`: lemmas about the custodian.
- `Configuration`: the configuration logic.

OpenSSL, base64, UTF-8 and the file system are not re-implemented. They are fields of the
`Crypto.Primitives` and `Io.FileSystem` records: total functions that every operation takes as
parameters. The encrypt/decrypt round trip is proved under three stated laws:

- `Base64RoundTrips`: decoding undoes encoding.
- `Utf8ZeroPadded`: zero bytes after a UTF-8 encoding decode to NUL characters.
- `KeyPair`: decryption with the private key undoes encryption with the public key. The
  ciphertext fills the modulus-sized block, and the plaintext fits the private modulus.

Each lock-protected cell of the application is plain sequential state. `load_rsa_keys` holds the
passphrase read lock while it loads into the key cell, so a load is atomic over both cells. Every
other operation touches one cell.

Two behaviours of the code are easy to misread, and one is a matter of representation:

- `load_rsa_keys` leaves the stored passphrase in place. Only the local unprotected copy inside
  `read_from_files` is zeroized. `Configuration.LoadRsaKeys` states that the passphrase cell is
  unchanged.
- `decrypt_str` uses `trim_matches`, which removes NULs from both ends, not only trailing
  padding. So the round trip returns `TrimNuls(x)`. It is exact precisely when `x` neither starts
  nor ends with NUL (`RsaProperties.DecryptEncryptExactIff`).
- The program's errors are message strings, or library errors propagated with `?`. They are
  distinct tags of `Errors.RsaError` here. An unreadable key file is one tag, `KeyFileUnreadable`,
  for both files, because the propagated I/O error does not name the file. Start-up failures are `Configuration.StartupError`:
  a missing key file is a panic in the program, and an unreadable configuration aborts through
  `expect`.

## Model

| member | source | states |
|---|---|---|
| RsaFunctions.New | src/rsa_functions.rs:22-41 | a fresh custodian has neither key, and so satisfies the key-cell invariant whatever the primitives are |
| RsaFunctions.ReadFromFiles | src/rsa_functions.rs:54-88 | every failed load leaves the cell exactly as it was; a successful one installs both keys, with a public modulus of at least 256 bytes; the passphrase copy is never left live, and exists exactly when the private key file was readable; once the private key parses, an unreadable public key file fails with the unreadable-file error and an unparsable public key with its own error |
| RsaProperties.ReadFromFilesSucceedsIff | src/rsa_functions.rs:54-88 | a load succeeds if and only if both files read, the private key parses with the passphrase, the public key parses and its modulus is large enough; it then installs exactly the two parsed keys |
| RsaProperties.ReadFromFilesPreservesValid | src/rsa_functions.rs:79-87 | a load keeps the key-cell invariant: both keys or neither, and no public modulus under 256 bytes |
| RsaProperties.SmallModulusIsRejected | src/rsa_functions.rs:79-84 | an undersized public key gives the key-size error, leaves any previously loaded pair in place, and the passphrase copy zeroized |
| RsaProperties.ReadFromFilesErrorOrder | src/rsa_functions.rs:60-74 | an unreadable private key file or a wrong passphrase fails with its own error before the public key file is consulted: the result is the same for any contents of that file |
| RsaProperties.ReadFromFilesIdempotent | src/rsa_functions.rs:54-88 | loading the same files with the same passphrase again leaves the key cell as the first load left it |
| RsaFunctions.EncryptStr | src/rsa_functions.rs:96-116 | the result is the public-key-not-set error exactly when no public key is set, and the encryption error exactly when a key is set and the encryption primitive fails on the UTF-8 bytes; no other error occurs; the call succeeds exactly when a public key is set and the encryption primitive succeeds on the UTF-8 bytes; a success is the base64 encoding of some block of exactly the public modulus size |
| RsaProperties.EncryptWithoutKeyNeverEncrypts | src/rsa_functions.rs:97-100 | without a public key the result does not depend on the encryption primitive at all |
| RsaFunctions.DecryptStr | src/rsa_functions.rs:124-168 | the private-key-not-set error occurs exactly when no private key is set; the base64 error exactly when a key is set and the input is not base64; the decryption error exactly when a key is set, the input decodes and decryption fails; the call succeeds exactly when, in addition, decryption succeeds and the zero-padded buffer is UTF-8; a success has no NUL at either end |
| RsaProperties.DecryptWithoutKeyDecodesNothing | src/rsa_functions.rs:125-128 | without a private key the result is the same error for every interpretation of base64, decryption and UTF-8 |
| RsaProperties.DecryptBadBase64NeverDecrypts | src/rsa_functions.rs:129-141 | invalid base64 fails with the base64 error whatever decryption and UTF-8 decoding would do |
| RsaProperties.DecryptUtf8ErrorIff | src/rsa_functions.rs:144-164 | the UTF-8 error occurs exactly when every earlier check passes and the zero-padded, modulus-sized decryption buffer is not UTF-8 |
| RsaProperties.DecryptOfCiphertext | src/rsa_functions.rs:124-165 | when the private key decrypts a ciphertext to the UTF-8 bytes of x, and those bytes fit the modulus, decrypting the base64 text of the ciphertext gives x with its edge NULs removed, whatever zero padding the buffer had |
| RsaProperties.DecryptEncryptRoundTrip | src/rsa_functions.rs:96-168 | for a matching key pair and lawful base64/UTF-8, whenever the encryption primitive accepts the UTF-8 bytes of x, decrypting the encryption of x gives x with its edge NULs removed |
| RsaProperties.DecryptEncryptExactIff | src/rsa_functions.rs:165 | under the same laws, the round trip returns exactly x if and only if x neither starts nor ends with NUL |
| Text.TrimNuls | src/rsa_functions.rs:165 | trimming leaves no NUL at either end and never lengthens the text |
| Text.TrimNulsIsTheTrimming | src/rsa_functions.rs:165 | trimming gives the unique middle part left after cutting an all-NUL prefix and an all-NUL suffix |
| Text.TrimNulsKeepsClean | src/rsa_functions.rs:165 | text without a NUL at either end is unchanged by trimming |
| Text.TrimNulsIdempotent | src/rsa_functions.rs:165 | trimming twice is trimming once |
| Text.TrimNulsIgnoresPadding | src/rsa_functions.rs:144-165 | NUL padding added at either end of a text, such as the zero tail of the decryption buffer, does not change the trimmed result |
| Errors.MessageIdentifiesError | src/rsa_functions.rs:70-164 | each fixed error message maps back to its own error tag; this covers the messages of the custodian and the password-not-set message of `load_rsa_keys` (src/configuration.rs, line 216) |
| Errors.MessagesAreDistinct | src/rsa_functions.rs:70-164 | two different errors never share a fixed message, the password-not-set message of `load_rsa_keys` (src/configuration.rs, line 216) included |
| Configuration.GetDomain | src/configuration.rs:70-75 | the domain is a prefix of fqdn without a colon, followed in fqdn by a colon unless it is all of fqdn |
| Configuration.GetDomainSplitsAtFirstColon | src/configuration.rs:70-75 | without a colon the domain is fqdn itself; with one, fqdn is the domain, a colon and the rest |
| Configuration.GetDomainIsFirstPart | src/configuration.rs:71 | the domain is the first of the colon-separated parts of fqdn |
| Configuration.GetDomainIdempotent | src/configuration.rs:70-75 | taking the domain of a domain changes nothing |
| Configuration.ReadConfigurationFile | src/configuration.rs:82-110 | reading succeeds exactly when the file parses and both RSA key files exist, returning the parsed file; an unparsable file, a missing private key file and (only when the private one exists) a missing public key file each give their own error, naming the missing path |
| Configuration.ReadConfigurationFileChecksOnlyKeyFiles | src/configuration.rs:84-102 | the outcome depends only on the presence of the two configured key files, and a missing-file error names one of those paths that is absent |
| Configuration.ReadFromFile | src/configuration.rs:151-195 | start-up succeeds exactly when the configuration reads and both key files exist; it then has no passphrase, no keys, no users, no requests and the configured administrators; a failure carries the configuration reader's error |
| Configuration.StartupIsValid | src/configuration.rs:161-171 | the state built at start-up satisfies the key-cell invariant |
| Configuration.LoadRsaKeys | src/configuration.rs:205-220 | without a passphrase the result is the password-not-set error with nothing changed; with one, the key cell and the result are those of read_from_files on the configured paths; no other cell changes, the passphrase included |
| Configuration.ClearRsaPassword | src/configuration.rs:230-233 | clearing always succeeds, leaves no passphrase, and changes no other cell |
| Configuration.ClearRsaPasswordIdempotent | src/configuration.rs:230-233 | clearing twice is clearing once |
| Configuration.LoadAfterClearFails | src/configuration.rs:205-233 | clearing keeps the loaded keys, and a load after a clear fails with the password-not-set error without touching them |
| Configuration.LoadRsaKeysIdempotent | src/configuration.rs:205-220 | a second load with the same passphrase and files leaves the state as the first left it |
| Configuration.RunPreservesValid | src/configuration.rs:205-233 | any sequence of loads and clears keeps the key-cell invariant and leaves the configuration, user table and request table unchanged |
| Configuration.ParseTargetName | src/configuration.rs:259-269 | every target deserializes back from its serialized name |
| Configuration.ParseTargetAcceptsExactlyTheNames | src/configuration.rs:259-269 | exactly _blank, _self, _parent and _top deserialize, each to the target whose name it is |
| Configuration.CipherListIsJoinOfSuites | src/configuration.rs:29-41 | the literal allow-list is the eleven suites joined by colons |
| Configuration.SuitesAreAead | src/configuration.rs:29-41 | every suite is AES-GCM or ChaCha20-Poly1305 |
| Configuration.SuitesHaveForwardSecrecy | src/configuration.rs:29-41 | every suite is a TLS 1.3 suite or uses ECDHE/DHE key exchange |
| Configuration.SuitesAreColonFree | src/configuration.rs:29-41 | no suite name contains the separator |
| Configuration.SuitesAreDistinct | src/configuration.rs:29-41 | no suite is listed twice |
| Configuration.CipherListIsAeadAllowList | src/configuration.rs:29-41 | split at colons, the allow-list is eleven distinct AEAD suites with ephemeral key exchange |
| Text.SplitJoin | src/configuration.rs:29-41 | splitting a colon-join of colon-free parts gives back the parts |
| Text.JoinSplit | src/configuration.rs:29-41 | joining the colon-separated parts of a string gives back the string |

## Left out

- OpenSSL itself is not modelled. That covers PEM parsing, RSA and PKCS#1 v1.5 padding (section 7.2 of RFC 8017), and the modulus size. So are base64 and UTF-8. All of these are uninterpreted fields of `Crypto.Primitives`. The round trip assumes only the three laws named above. `encrypt` is a deterministic function here, while PKCS#1 v1.5 padding is random: two `encrypt_str` calls on one text give different ciphertexts in the program and the same one in the model, and no lemma depends on this.
- `src/unsecure_string.rs` and `src/base64_trait.rs` are not part of this model. The passphrase is a byte sequence handed unchanged to private-key parsing.
- Memory-level zeroization is not modelled. The unprotected passphrase copy is tracked only by the `CopyState` field of the load result. Logging and `println!` are left out.
- File reads, `Path::exists`, opening the configuration file and serde JSON deserialization are inputs. They are the `Io.FileSystem` functions and an `Option<ConfigurationFile>` parameter.
- `Arc<RwLock<…>>` locking and concurrent handlers are not modelled. Each cell is plain state; `load_rsa_keys` is atomic over the passphrase and key cells, because it holds the passphrase read lock while it loads into the key cell, and every other operation touches one cell.
- The shared-secret cell (`SharedSecretData`) is left out. Its contents are defined outside the modelled files.
- The user and request tables are modelled only by their key sets. Their entries are defined outside the modelled files.
- The e-mail configuration is left out: its type is defined outside the modelled files.
- The LDAP and OIDC settings, and OIDC provider discovery and client setup, are left out. They are feature-gated or network calls.
- Configuration.ReadConfigurationFile: building the valid-user regex (src/configuration.rs:103-108) is left out. Every build enables one of the two features that run it after the key-file checks, so an invalid regex is a third failure of `read_from_file` that the model does not have. The regex syntax belongs to a library outside the modelled files.
- Configuration.ReadFromFile: in a build with the OIDC feature, start-up also aborts when the issuer URL, provider discovery or the redirect URL fails (src/configuration.rs:154-160 and 182-187). Those are further start-up failures that the "exactly when" of this member does not cover, because discovery is a network call.
- `get_ssl_acceptor_builder` is left out. It is OpenSSL acceptor construction and certificate file loading. Only its cipher allow-list constant is modelled.
- `src/main.rs` is left out: HTTP routing, middleware, headers and server binding. The handler that stores the passphrase (`set_password_for_rsa_rivate_key`) is defined outside the modelled files, so the model has no operation that sets the passphrase.
- `max_authrequest_age_seconds` and `max_cookie_age_seconds` are carried as unbounded integers. The model does nothing with them.
- RsaFunctions.EncryptStr: the block is the output buffer with the ciphertext written at its start. The library never writes past the modulus size. The model truncates longer output, which the library cannot produce.
- RsaFunctions.DecryptStr: the same truncation convention applies to the decryption buffer.
- CIPHER_LIST is written as a right-nested concatenation of the same eleven literal pieces. Rust's `concat!` has no nesting, and concatenation is associative.

=== FILE: configuration.dfy ===
/** The application configuration: the parsed configuration file, the
    domain derived from it, the start-up checks on the RSA key files, the
    per-concern state cells built at start-up, the two operations on the
    passphrase and key cells, the imprint link target, and the TLS cipher
    allow-list. Each cell is plain sequential state here. In the program
    each sits behind its own lock; `load_rsa_keys` holds the passphrase
    read lock while it loads into the key cell, so a load is atomic over
    both cells, and every other operation touches one cell. */
module Configuration {
  import opened Results
  import opened Text
  import opened Crypto
  import opened Io
  import opened Errors
  import opened RsaFunctions
  import opened RsaProperties

  /** Where the imprint link opens. */
  datatype Target = Blank | Self | Parent | Top

  /** The serialized name of each target. */
  function TargetName(t: Target): string {
    match t
    case Blank => "_blank"
    case Self => "_self"
    case Parent => "_parent"
    case Top => "_top"
  }

  /** Deserialization of a target name; any other name is rejected. */
  function ParseTarget(name: string): (t: Option<Target>) {
    if name == "_blank" then Some(Blank)
    else if name == "_self" then Some(Self)
    else if name == "_parent" then Some(Parent)
    else if name == "_top" then Some(Top)
    else None
  }

  /** Every target survives serialization. */
  lemma ParseTargetName(t: Target)
    ensures ParseTarget(TargetName(t)) == Some(t)
  {
  }

  /** Exactly the four names deserialize, and each back to its own name. */
  lemma ParseTargetAcceptsExactlyTheNames(name: string)
    ensures ParseTarget(name).Some? <==> name in ["_blank", "_self", "_parent", "_top"]
    ensures ParseTarget(name).Some? ==> TargetName(ParseTarget(name).value) == name
  {
  }

  /** Link information for the imprint page. */
  datatype Imprint = Imprint(href: string, target: Target)

  /** The fields of the JSON configuration file this model uses. The two
      ages are `i64` in the program and are only carried here. */
  datatype ConfigurationFile = ConfigurationFile(
    webBindAddress: string,
    sslPrivateKeyFile: string,
    sslCertificateChainFile: string,
    rsaPrivateKeyFile: string,
    rsaPublicKeyFile: string,
    secretDirectory: string,
    adminAccounts: seq<string>,
    maxAuthrequestAgeSeconds: int,
    maxCookieAgeSeconds: int,
    fqdn: string,
    loginHint: string,
    mailHint: Option<string>,
    imprint: Imprint)

  /** `get_domain`: the part of `fqdn` (`<domain>:<port>`) before its first
      colon, or all of it when it has none. */
  function GetDomain(config: ConfigurationFile): (domain: string)
    ensures StartsWith(config.fqdn, domain)
    ensures ':' !in domain
    ensures |domain| < |config.fqdn| ==> config.fqdn[|domain|] == ':'
  {
    match IndexOf(config.fqdn, ':')
    case Some(i) =>
      assert forall k :: 0 <= k < i ==> config.fqdn[..i][k] == config.fqdn[k];
      config.fqdn[..i]
    case None => config.fqdn
  }

  /** Without a colon the domain is the whole `fqdn`; with one, `fqdn` is the
      domain, a colon and the rest. */
  lemma GetDomainSplitsAtFirstColon(config: ConfigurationFile)
    ensures ':' !in config.fqdn ==> GetDomain(config) == config.fqdn
    ensures ':' in config.fqdn ==>
      config.fqdn == GetDomain(config) + [':'] + config.fqdn[|GetDomain(config)| + 1..]
  {
    var f := config.fqdn;
    var r := IndexOf(f, ':');
    if r.Some? {
      assert GetDomain(config) == f[..r.value];
      SplitAround(f, r.value);
    }
  }

  /** The domain is the first of the parts `fqdn` splits into at colons. */
  lemma GetDomainIsFirstPart(config: ConfigurationFile)
    ensures GetDomain(config) == Split(config.fqdn, ':')[0]
  {
  }

  /** A domain has no port left to remove. */
  lemma GetDomainIdempotent(config: ConfigurationFile)
    ensures GetDomain(config.(fqdn := GetDomain(config))) == GetDomain(config)
  {
    var d := GetDomain(config);
    assert IndexOf(d, ':').None?;
  }

  /** Why start-up stops: the file cannot be opened or is not valid JSON
      (an error the caller turns into an abort), or a referenced RSA key
      file is missing (a panic). */
  datatype StartupError =
    | ConfigurationUnreadable
    | PrivateKeyFileMissing(path: string)
    | PublicKeyFileMissing(path: string)

  /** `ConfigurationFile::read_from_file`. `parsed` is the outcome of opening
      the file and deserializing its JSON. The private key file is checked
      before the public one. */
  function ReadConfigurationFile(parsed: Option<ConfigurationFile>, fs: FileSystem)
    : (r: Result<ConfigurationFile, StartupError>)
    ensures r.Ok? <==>
      parsed.Some? && fs.present(parsed.value.rsaPrivateKeyFile) && fs.present(parsed.value.rsaPublicKeyFile)
    ensures r.Ok? ==> r.value == parsed.value
    ensures parsed.None? ==> r == Err(ConfigurationUnreadable)
    ensures parsed.Some? && !fs.present(parsed.value.rsaPrivateKeyFile) ==>
      r == Err(PrivateKeyFileMissing(parsed.value.rsaPrivateKeyFile))
    ensures parsed.Some? && fs.present(parsed.value.rsaPrivateKeyFile) && !fs.present(parsed.value.rsaPublicKeyFile) ==>
      r == Err(PublicKeyFileMissing(parsed.value.rsaPublicKeyFile))
    ensures r.Err? && r.error.PublicKeyFileMissing? ==>
      parsed.Some? && fs.present(parsed.value.rsaPrivateKeyFile)
  {
    match parsed
    case None => Err(ConfigurationUnreadable)
    case Some(config) =>
      if !fs.present(config.rsaPrivateKeyFile) then Err(PrivateKeyFileMissing(config.rsaPrivateKeyFile))
      else if !fs.present(config.rsaPublicKeyFile) then Err(PublicKeyFileMissing(config.rsaPublicKeyFile))
      else Ok(config)
  }

  /** Start-up looks at nothing but the presence of the two configured key
      files, and every missing-file error names one of them that is absent. */
  lemma ReadConfigurationFileChecksOnlyKeyFiles(parsed: Option<ConfigurationFile>, fs: FileSystem, fs': FileSystem)
    requires parsed.Some? ==>
      && fs'.present(parsed.value.rsaPrivateKeyFile) == fs.present(parsed.value.rsaPrivateKeyFile)
      && fs'.present(parsed.value.rsaPublicKeyFile) == fs.present(parsed.value.rsaPublicKeyFile)
    ensures ReadConfigurationFile(parsed, fs') == ReadConfigurationFile(parsed, fs)
    ensures var r := ReadConfigurationFile(parsed, fs);
      r.Err? && !r.error.ConfigurationUnreadable? ==>
        && parsed.Some?
        && r.error.path in {parsed.value.rsaPrivateKeyFile, parsed.value.rsaPublicKeyFile}
        && !fs.present(r.error.path)
  {
  }

  /** The table of authenticated users, modelled by its keys, together with
      the administrator accounts it was created with. */
  datatype AuthenticatedUsers = AuthenticatedUsers(users: set<string>, adminAccounts: seq<string>)

  /** The record of incoming resource requests, modelled by its keys. */
  datatype RequestData = RequestData(requests: set<string>)

  datatype ApplicationConfiguration = ApplicationConfiguration(
    configurationFile: ConfigurationFile,
    rsaPassword: RsaPrivateKeyPassword,
    rsaKeys: RsaKeys,
    authenticatedUsers: AuthenticatedUsers,
    requestData: RequestData)

  /** The state right after start-up: no passphrase, no keys, no users, no
      requests, and the administrator list taken from the file. */
  predicate IsInitial(app: ApplicationConfiguration) {
    && app.rsaPassword.password.None?
    && app.rsaKeys.privateKey.None? && app.rsaKeys.publicKey.None?
    && app.authenticatedUsers.users == {}
    && app.authenticatedUsers.adminAccounts == app.configurationFile.adminAccounts
    && app.requestData.requests == {}
  }

  /** `ApplicationConfiguration::read_from_file`: any failure to read the
      configuration stops start-up; otherwise every cell starts empty. */
  function ReadFromFile(parsed: Option<ConfigurationFile>, fs: FileSystem)
    : (r: Result<ApplicationConfiguration, StartupError>)
    ensures r.Ok? <==>
      parsed.Some? && fs.present(parsed.value.rsaPrivateKeyFile) && fs.present(parsed.value.rsaPublicKeyFile)
    ensures r.Ok? ==> r.value.configurationFile == parsed.value && IsInitial(r.value)
    ensures r.Err? ==> ReadConfigurationFile(parsed, fs) == Err(r.error)
  {
    match ReadConfigurationFile(parsed, fs)
    case Err(e) => Err(e)
    case Ok(config) =>
      Ok(ApplicationConfiguration(
        config,
        RsaPrivateKeyPassword(None),
        New(),
        AuthenticatedUsers({}, config.adminAccounts),
        RequestData({})))
  }

  /** The state after an operation and the value it returned. */
  datatype Step = Step(state: ApplicationConfiguration, outcome: Outcome<RsaError>)

  /** `load_rsa_keys`: with a passphrase stored, load the key files named in
      the configuration into the key cell; the passphrase stays stored. */
  function LoadRsaKeys(p: Primitives, fs: FileSystem, app: ApplicationConfiguration): (r: Step)
    ensures app.rsaPassword.password.None? ==> r == Step(app, Fail(PasswordNotSet))
    ensures r.state == app.(rsaKeys := r.state.rsaKeys)
    ensures app.rsaPassword.password.Some? ==>
      var load := ReadFromFiles(p, fs, app.rsaKeys, app.configurationFile.rsaPrivateKeyFile,
                                app.configurationFile.rsaPublicKeyFile, app.rsaPassword.password.value);
      r.state.rsaKeys == load.keys && r.outcome == load.outcome
  {
    match app.rsaPassword.password
    case Some(password) =>
      var load := ReadFromFiles(p, fs, app.rsaKeys, app.configurationFile.rsaPrivateKeyFile,
                                app.configurationFile.rsaPublicKeyFile, password);
      Step(app.(rsaKeys := load.keys), load.outcome)
    case None => Step(app, Fail(PasswordNotSet))
  }

  /** `clear_rsa_password`: forget the stored passphrase; always succeeds. */
  function ClearRsaPassword(app: ApplicationConfiguration): (r: Step)
    ensures r.outcome == Pass
    ensures r.state.rsaPassword.password.None?
    ensures r.state.(rsaPassword := app.rsaPassword) == app
  {
    Step(app.(rsaPassword := RsaPrivateKeyPassword(None)), Pass)
  }

  /** The state invariant: the key cell keeps its own invariant. */
  predicate AppValid(p: Primitives, app: ApplicationConfiguration) {
    Valid(p, app.rsaKeys)
  }

  /** Clearing twice is clearing once. */
  lemma ClearRsaPasswordIdempotent(app: ApplicationConfiguration)
    ensures ClearRsaPassword(ClearRsaPassword(app).state) == ClearRsaPassword(app)
  {
  }

  /** Clearing the passphrase does not unload the keys, and a later load
      then fails without touching them. */
  lemma LoadAfterClearFails(p: Primitives, fs: FileSystem, app: ApplicationConfiguration)
    ensures var cleared := ClearRsaPassword(app).state;
      && cleared.rsaKeys == app.rsaKeys
      && LoadRsaKeys(p, fs, cleared) == Step(cleared, Fail(PasswordNotSet))
  {
  }

  /** Loading the keys a second time changes nothing more. */
  lemma LoadRsaKeysIdempotent(p: Primitives, fs: FileSystem, app: ApplicationConfiguration)
    ensures var once := LoadRsaKeys(p, fs, app).state;
      LoadRsaKeys(p, fs, once).state == once
  {
    if app.rsaPassword.password.Some? {
      ReadFromFilesIdempotent(p, fs, app.rsaKeys, app.configurationFile.rsaPrivateKeyFile,
                              app.configurationFile.rsaPublicKeyFile, app.rsaPassword.password.value);
    }
  }

  /** The operations an administrator can trigger on a running service. */
  datatype Operation = LoadKeys | ClearPassword

  /** The state after performing `ops` in order. */
  function Run(p: Primitives, fs: FileSystem, app: ApplicationConfiguration, ops: seq<Operation>)
    : ApplicationConfiguration
    decreases |ops|
  {
    if |ops| == 0 then app
    else
      var next := match ops[0]
        case LoadKeys => LoadRsaKeys(p, fs, app).state
        case ClearPassword => ClearRsaPassword(app).state;
      Run(p, fs, next, ops[1..])
  }

  /** From any state that satisfies the invariant, every sequence of
      operations keeps the key cell invariant: both keys or neither, and
      never a weak key. */
  lemma {:induction false} RunPreservesValid(p: Primitives, fs: FileSystem,
                                             app: ApplicationConfiguration, ops: seq<Operation>)
    requires AppValid(p, app)
    ensures AppValid(p, Run(p, fs, app, ops))
    ensures Run(p, fs, app, ops).configurationFile == app.configurationFile
    ensures Run(p, fs, app, ops).authenticatedUsers == app.authenticatedUsers
    ensures Run(p, fs, app, ops).requestData == app.requestData
    decreases |ops|
  {
    if |ops| > 0 {
      var next := match ops[0]
        case LoadKeys => LoadRsaKeys(p, fs, app).state
        case ClearPassword => ClearRsaPassword(app).state;
      if ops[0].LoadKeys? && app.rsaPassword.password.Some? {
        ReadFromFilesPreservesValid(p, fs, app.rsaKeys, app.configurationFile.rsaPrivateKeyFile,
                                    app.configurationFile.rsaPublicKeyFile, app.rsaPassword.password.value);
      }
      RunPreservesValid(p, fs, next, ops[1..]);
    }
  }

  /** A started service satisfies the invariant. */
  lemma StartupIsValid(p: Primitives, parsed: Option<ConfigurationFile>, fs: FileSystem)
    requires ReadFromFile(parsed, fs).Ok?
    ensures AppValid(p, ReadFromFile(parsed, fs).value)
  {
  }

  /** The TLS cipher allow-list handed to OpenSSL, as written in the program. */
  const CIPHER_LIST: string :=
    "TLS_AES_128_GCM_SHA256:" + (
    "TLS_AES_256_GCM_SHA384:" + (
    "TLS_CHACHA20_POLY1305_SHA256:" + (
    "ECDHE-ECDSA-AES128-GCM-SHA256:" + (
    "ECDHE-RSA-AES128-GCM-SHA256:" + (
    "ECDHE-ECDSA-AES256-GCM-SHA384:" + (
    "ECDHE-RSA-AES256-GCM-SHA384:" + (
    "ECDHE-ECDSA-CHACHA20-POLY1305:" + (
    "ECDHE-RSA-CHACHA20-POLY1305:" + (
    "DHE-RSA-AES128-GCM-SHA256:" + (
    "DHE-RSA-AES256-GCM-SHA384"))))))))))

  /** The suites of the allow-list, one by one. */
  const CIPHER_SUITES: seq<string> := [
    "TLS_AES_128_GCM_SHA256",
    "TLS_AES_256_GCM_SHA384",
    "TLS_CHACHA20_POLY1305_SHA256",
    "ECDHE-ECDSA-AES128-GCM-SHA256",
    "ECDHE-RSA-AES128-GCM-SHA256",
    "ECDHE-ECDSA-AES256-GCM-SHA384",
    "ECDHE-RSA-AES256-GCM-SHA384",
    "ECDHE-ECDSA-CHACHA20-POLY1305",
    "ECDHE-RSA-CHACHA20-POLY1305",
    "DHE-RSA-AES128-GCM-SHA256",
    "DHE-RSA-AES256-GCM-SHA384"]

  /** An authenticated-encryption suite, by its OpenSSL or IANA name:
      AES-GCM or ChaCha20-Poly1305. */
  predicate IsAeadSuite(name: string) {
    || EndsWith(name, "_GCM_SHA256") || EndsWith(name, "_GCM_SHA384")
    || EndsWith(name, "-GCM-SHA256") || EndsWith(name, "-GCM-SHA384")
    || EndsWith(name, "_CHACHA20_POLY1305_SHA256") || EndsWith(name, "-CHACHA20-POLY1305")
  }

  /** A suite whose key exchange is ephemeral: every TLS 1.3 suite, and the
      TLS 1.2 suites with (EC)DHE key exchange. */
  predicate HasForwardSecrecy(name: string) {
    StartsWith(name, "TLS_") || StartsWith(name, "ECDHE-") || StartsWith(name, "DHE-")
  }

  /** Each colon-terminated piece of the literal list is a suite name followed by a colon. */
  lemma SuitePiecesEndInColon()
    ensures "TLS_AES_128_GCM_SHA256:" == "TLS_AES_128_GCM_SHA256" + [':']
      && "TLS_AES_256_GCM_SHA384:" == "TLS_AES_256_GCM_SHA384" + [':']
      && "TLS_CHACHA20_POLY1305_SHA256:" == "TLS_CHACHA20_POLY1305_SHA256" + [':']
      && "ECDHE-ECDSA-AES128-GCM-SHA256:" == "ECDHE-ECDSA-AES128-GCM-SHA256" + [':']
      && "ECDHE-RSA-AES128-GCM-SHA256:" == "ECDHE-RSA-AES128-GCM-SHA256" + [':']
      && "ECDHE-ECDSA-AES256-GCM-SHA384:" == "ECDHE-ECDSA-AES256-GCM-SHA384" + [':']
      && "ECDHE-RSA-AES256-GCM-SHA384:" == "ECDHE-RSA-AES256-GCM-SHA384" + [':']
      && "ECDHE-ECDSA-CHACHA20-POLY1305:" == "ECDHE-ECDSA-CHACHA20-POLY1305" + [':']
      && "ECDHE-RSA-CHACHA20-POLY1305:" == "ECDHE-RSA-CHACHA20-POLY1305" + [':']
      && "DHE-RSA-AES128-GCM-SHA256:" == "DHE-RSA-AES128-GCM-SHA256" + [':']
  {
  }

  /** The colon-join of the last five suites is the end of the literal list. */
  lemma LaterSuitesJoin()
    ensures Join(CIPHER_SUITES[6..], ':') ==
      "ECDHE-RSA-AES256-GCM-SHA384:" + (
      "ECDHE-ECDSA-CHACHA20-POLY1305:" + (
      "ECDHE-RSA-CHACHA20-POLY1305:" + (
      "DHE-RSA-AES128-GCM-SHA256:" + (
      "DHE-RSA-AES256-GCM-SHA384"))))
  {
    var xs := CIPHER_SUITES;
    SuitePiecesEndInColon();
    assert xs[10..] == [xs[10]];
    JoinFrom(xs, 9, ':');
    JoinFrom(xs, 8, ':');
    JoinFrom(xs, 7, ':');
    JoinFrom(xs, 6, ':');
  }

  /** The colon-join of the suites from the fourth on is the end of the literal list. */
  lemma MiddleSuitesJoin()
    ensures Join(CIPHER_SUITES[3..], ':') ==
      "ECDHE-ECDSA-AES128-GCM-SHA256:" + (
      "ECDHE-RSA-AES128-GCM-SHA256:" + (
      "ECDHE-ECDSA-AES256-GCM-SHA384:" + (
      "ECDHE-RSA-AES256-GCM-SHA384:" + (
      "ECDHE-ECDSA-CHACHA20-POLY1305:" + (
      "ECDHE-RSA-CHACHA20-POLY1305:" + (
      "DHE-RSA-AES128-GCM-SHA256:" + (
      "DHE-RSA-AES256-GCM-SHA384")))))))
  {
    var xs := CIPHER_SUITES;
    SuitePiecesEndInColon();
    LaterSuitesJoin();
    JoinFrom(xs, 5, ':');
    JoinFrom(xs, 4, ':');
    JoinFrom(xs, 3, ':');
  }

  /** The colon-join of all the suites, written out. */
  lemma AllSuitesJoin()
    ensures Join(CIPHER_SUITES, ':') ==
      "TLS_AES_128_GCM_SHA256:" + (
      "TLS_AES_256_GCM_SHA384:" + (
      "TLS_CHACHA20_POLY1305_SHA256:" + (
      "ECDHE-ECDSA-AES128-GCM-SHA256:" + (
      "ECDHE-RSA-AES128-GCM-SHA256:" + (
      "ECDHE-ECDSA-AES256-GCM-SHA384:" + (
      "ECDHE-RSA-AES256-GCM-SHA384:" + (
      "ECDHE-ECDSA-CHACHA20-POLY1305:" + (
      "ECDHE-RSA-CHACHA20-POLY1305:" + (
      "DHE-RSA-AES128-GCM-SHA256:" + (
      "DHE-RSA-AES256-GCM-SHA384"))))))))))
  {
    var xs := CIPHER_SUITES;
    SuitePiecesEndInColon();
    MiddleSuitesJoin();
    JoinFrom(xs, 2, ':');
    JoinFrom(xs, 1, ':');
    assert Join(xs, ':') == xs[0] + [':'] + Join(xs[1..], ':');
  }

  /** The literal allow-list is the colon-joined list of suites. */
  lemma CipherListIsJoinOfSuites()
    ensures CIPHER_LIST == Join(CIPHER_SUITES, ':')
  {
    AllSuitesJoin();
  }

  /** The TLS 1.3 AES-GCM suites are AEAD suites. */
  lemma Tls13AesGcmSuitesAreAead()
    ensures forall k :: 0 <= k < |CIPHER_SUITES| && (k == 0 || k == 1) ==> IsAeadSuite(CIPHER_SUITES[k])
  {
    assert EndsWith(CIPHER_SUITES[0], "_GCM_SHA256");
    assert EndsWith(CIPHER_SUITES[1], "_GCM_SHA384");
  }

  /** The TLS 1.3 ChaCha20-Poly1305 suite is an AEAD suite. */
  lemma Tls13ChaChaSuiteIsAead()
    ensures IsAeadSuite(CIPHER_SUITES[2])
  {
    assert CIPHER_SUITES[2] == "TLS_CHACHA20_POLY1305_SHA256";
    assert EndsWith("TLS_CHACHA20_POLY1305_SHA256", "_CHACHA20_POLY1305_SHA256");
  }

  /** The ECDHE AES-128-GCM suites are AEAD suites. */
  lemma EcdheAes128SuitesAreAead()
    ensures forall k :: 0 <= k < |CIPHER_SUITES| && (k == 3 || k == 4) ==> IsAeadSuite(CIPHER_SUITES[k])
  {
    assert EndsWith(CIPHER_SUITES[3], "-GCM-SHA256");
    assert EndsWith(CIPHER_SUITES[4], "-GCM-SHA256");
  }

  /** The ECDHE AES-256-GCM suites are AEAD suites. */
  lemma EcdheAes256SuitesAreAead()
    ensures forall k :: 0 <= k < |CIPHER_SUITES| && (k == 5 || k == 6) ==> IsAeadSuite(CIPHER_SUITES[k])
  {
    assert EndsWith(CIPHER_SUITES[5], "-GCM-SHA384");
    assert EndsWith(CIPHER_SUITES[6], "-GCM-SHA384");
  }

  /** The ECDHE ChaCha20-Poly1305 suites are AEAD suites. */
  lemma EcdheChaChaSuitesAreAead()
    ensures forall k :: 0 <= k < |CIPHER_SUITES| && (k == 7 || k == 8) ==> IsAeadSuite(CIPHER_SUITES[k])
  {
    assert CIPHER_SUITES[7] == "ECDHE-ECDSA-CHACHA20-POLY1305";
    assert EndsWith("ECDHE-ECDSA-CHACHA20-POLY1305", "-CHACHA20-POLY1305");
    assert CIPHER_SUITES[8] == "ECDHE-RSA-CHACHA20-POLY1305";
    assert EndsWith("ECDHE-RSA-CHACHA20-POLY1305", "-CHACHA20-POLY1305");
  }

  /** The DHE suites are AEAD suites. */
  lemma DheSuitesAreAead()
    ensures forall k :: 0 <= k < |CIPHER_SUITES| && (k == 9 || k == 10) ==> IsAeadSuite(CIPHER_SUITES[k])
  {
    assert EndsWith(CIPHER_SUITES[9], "-GCM-SHA256");
    assert EndsWith(CIPHER_SUITES[10], "-GCM-SHA384");
  }

  /** The names of the AES-GCM with SHA-256 suites contain no colon. */
  lemma AesGcmSha256SuitesAreColonFree()
    ensures forall k :: 0 <= k < |CIPHER_SUITES| && (k == 0 || k == 3 || k == 4 || k == 9) ==> ':' !in CIPHER_SUITES[k]
  {
  }

  /** The names of the AES-GCM with SHA-384 suites contain no colon. */
  lemma AesGcmSha384SuitesAreColonFree()
    ensures forall k :: 0 <= k < |CIPHER_SUITES| && (k == 1 || k == 5 || k == 6 || k == 10) ==> ':' !in CIPHER_SUITES[k]
  {
  }

  /** The names of the ChaCha20-Poly1305 suites contain no colon. */
  lemma ChaChaPolySuitesAreColonFree()
    ensures forall k :: 0 <= k < |CIPHER_SUITES| && (k == 2 || k == 7 || k == 8) ==> ':' !in CIPHER_SUITES[k]
  {
  }

  /** Every listed suite is an authenticated-encryption suite. */
  lemma SuitesAreAead()
    ensures forall k :: 0 <= k < |CIPHER_SUITES| ==> IsAeadSuite(CIPHER_SUITES[k])
  {
    Tls13AesGcmSuitesAreAead();
    Tls13ChaChaSuiteIsAead();
    EcdheAes128SuitesAreAead();
    EcdheAes256SuitesAreAead();
    EcdheChaChaSuitesAreAead();
    DheSuitesAreAead();
  }

  /** No suite name contains the separator of the list. */
  lemma SuitesAreColonFree()
    ensures forall k :: 0 <= k < |CIPHER_SUITES| ==> ':' !in CIPHER_SUITES[k]
  {
    AesGcmSha256SuitesAreColonFree();
    AesGcmSha384SuitesAreColonFree();
    ChaChaPolySuitesAreColonFree();
  }

  /** The TLS 1.3 suites use ephemeral key exchange. */
  lemma Tls13SuitesHaveForwardSecrecy()
    ensures forall k :: 0 <= k < |CIPHER_SUITES| && (k == 0 || k == 1 || k == 2) ==> HasForwardSecrecy(CIPHER_SUITES[k])
  {
  }

  /** The ECDHE suites use ephemeral key exchange. */
  lemma EcdheSuitesHaveForwardSecrecy()
    ensures forall k :: 3 <= k < |CIPHER_SUITES| && k <= 8 ==> HasForwardSecrecy(CIPHER_SUITES[k])
  {
  }

  /** The DHE suites use ephemeral key exchange. */
  lemma DheSuitesHaveForwardSecrecy()
    ensures forall k :: 9 <= k < |CIPHER_SUITES| ==> HasForwardSecrecy(CIPHER_SUITES[k])
  {
  }

  /** Every listed suite uses ephemeral key exchange. */
  lemma SuitesHaveForwardSecrecy()
    ensures forall k :: 0 <= k < |CIPHER_SUITES| ==> HasForwardSecrecy(CIPHER_SUITES[k])
  {
    Tls13SuitesHaveForwardSecrecy();
    EcdheSuitesHaveForwardSecrecy();
    DheSuitesHaveForwardSecrecy();
  }

  /** No suite is listed twice. */
  lemma SuitesAreDistinct()
    ensures forall k, l :: 0 <= k < l < |CIPHER_SUITES| ==> CIPHER_SUITES[k] != CIPHER_SUITES[l]
  {
  }

  /** Splitting the allow-list at its colons gives eleven
      distinct suites, each an AEAD suite with ephemeral key exchange. */
  lemma CipherListIsAeadAllowList()
    ensures var suites := Split(CIPHER_LIST, ':');
      && |suites| == 11
      && (forall k :: 0 <= k < |suites| ==> IsAeadSuite(suites[k]) && HasForwardSecrecy(suites[k]))
      && (forall k, l :: 0 <= k < l < |suites| ==> suites[k] != suites[l])
  {
    CipherListIsJoinOfSuites();
    SuitesAreAead();
    SuitesHaveForwardSecrecy();
    SuitesAreColonFree();
    SuitesAreDistinct();
    SplitJoin(CIPHER_SUITES, ':');
  }
}

=== FILE: crypto.dfy ===
/** The cryptographic and encoding primitives the key custodian relies on,
    left uninterpreted: OpenSSL's PEM parsing, key size and PKCS#1 v1.5
    encryption/decryption, base64, and UTF-8. A value of `Primitives` fixes
    one interpretation of all of them; the properties the round trip needs
    are stated separately as laws. */
module Crypto {
  import opened Results
  import opened Text

  newtype byte = b: int | 0 <= b < 256

  /** Opaque handles for parsed OpenSSL keys. */
  datatype PrivateKey = PrivateKey(handle: nat)
  datatype PublicKey = PublicKey(handle: nat)

  datatype Primitives = Primitives(
    // `Rsa::private_key_from_pem_passphrase(pem, passphrase)`
    parsePrivate: (string, seq<byte>) -> Option<PrivateKey>,
    // `Rsa::public_key_from_pem(pem)`
    parsePublic: string -> Option<PublicKey>,
    // `size()`: the modulus length in bytes
    privateSize: PrivateKey -> nat,
    publicSize: PublicKey -> nat,
    // `public_encrypt` / `private_decrypt` with PKCS#1 padding: the bytes
    // written into the output buffer, or `None` on a library error
    encrypt: (PublicKey, seq<byte>) -> Option<seq<byte>>,
    decrypt: (PrivateKey, seq<byte>) -> Option<seq<byte>>,
    base64Encode: seq<byte> -> string,
    base64Decode: string -> Option<seq<byte>>,
    // `str::as_bytes` and `String::from_utf8`
    utf8Encode: string -> seq<byte>,
    utf8Decode: seq<byte> -> Option<string>)

  /** `vec![0; n]` */
  function Zeros(n: nat): (z: seq<byte>)
    ensures |z| == n
    ensures forall k :: 0 <= k < n ==> z[k] == 0
  {
    seq(n, _ => 0)
  }

  /** The buffer after a library call wrote `data` at its start; the call
      never writes past the buffer, whose length does not change. */
  function Overlay(buf: seq<byte>, data: seq<byte>): (r: seq<byte>)
    ensures |r| == |buf|
    ensures |data| <= |buf| ==> r[..|data|] == data && r[|data|..] == buf[|data|..]
  {
    if |data| >= |buf| then data[..|buf|] else data + buf[|data|..]
  }

  /** Data written at the start of a zero buffer it fits into leaves the
      rest of the buffer zero. */
  lemma OverlayOnZeros(n: nat, data: seq<byte>)
    requires |data| <= n
    ensures Overlay(Zeros(n), data) == data + Zeros(n - |data|)
  {
    assert Zeros(n)[|data|..] == Zeros(n - |data|);
  }

  /** Base64 decoding undoes base64 encoding. */
  ghost predicate Base64RoundTrips(p: Primitives) {
    forall b {:trigger p.base64Encode(b)} :: p.base64Decode(p.base64Encode(b)) == Some(b)
  }

  /** A UTF-8 encoding followed by zero bytes decodes to the text followed
      by as many NUL characters (zero is the encoding of U+0000). */
  ghost predicate Utf8ZeroPadded(p: Primitives) {
    forall x, n {:trigger p.utf8Encode(x), Zeros(n)} ::
      p.utf8Decode(p.utf8Encode(x) + Zeros(n)) == Some(x + Nuls(n))
  }

  /** The two keys form a pair: every successful encryption with the public
      key fills a modulus-sized block that the private key decrypts back to
      the plaintext, which fits into the private key's modulus. */
  ghost predicate KeyPair(p: Primitives, privateKey: PrivateKey, publicKey: PublicKey) {
    forall m {:trigger p.encrypt(publicKey, m)} ::
      p.encrypt(publicKey, m).Some? ==>
        && |p.encrypt(publicKey, m).value| == p.publicSize(publicKey)
        && p.decrypt(privateKey, p.encrypt(publicKey, m).value) == Some(m)
        && |m| <= p.privateSize(privateKey)
  }
}

=== FILE: errors.dfy ===
/** The distinct failures of the key custodian and of the passphrase cell.
    The program reports each one as a boxed error carrying a fixed
    message, or propagates an I/O or OpenSSL error with `?`. */
module Errors {
  import opened Results

  datatype RsaError =
    | KeyFileUnreadable                // `read_to_string` failed, propagated with `?`; the I/O error does not name the file
    | CannotLoadRsaKeys                // the private key did not parse with the passphrase
    | PublicKeyUnparsable              // `public_key_from_pem` failed, propagated with `?`
    | KeySizeTooSmall                  // public modulus below the minimum
    | PublicKeyNotSet
    | CouldNotEncrypt
    | PrivateKeyNotSet
    | CouldNotBase64Decode
    | CouldNotDecrypt
    | CouldNotConvertToUtf8
    | PasswordNotSet                   // no passphrase stored when keys are to be loaded

  /** The fixed message text the program reports for an error; the two
      propagated errors carry the underlying library's text instead. */
  function Message(e: RsaError): Option<string> {
    match e
    case KeyFileUnreadable => None
    case CannotLoadRsaKeys => Some("Cannot load rsa keys!")
    case PublicKeyUnparsable => None
    case KeySizeTooSmall => Some("RSA key size too small")
    case PublicKeyNotSet => Some("RSA public key is not set!")
    case CouldNotEncrypt => Some("Could not rsa encrypt given value")
    case PrivateKeyNotSet => Some("RSA private key is not set!")
    case CouldNotBase64Decode => Some("Could not base64 decode given value")
    case CouldNotDecrypt => Some("Could not rsa decrypt given value")
    case CouldNotConvertToUtf8 => Some("Could not convert decrypted data to utf8")
    case PasswordNotSet => Some("Password not set, inform system administrator")
  }

  /** The error a fixed message stands for. */
  function FromMessage(m: string): Option<RsaError> {
    if m == "Cannot load rsa keys!" then Some(CannotLoadRsaKeys)
    else if m == "RSA key size too small" then Some(KeySizeTooSmall)
    else if m == "RSA public key is not set!" then Some(PublicKeyNotSet)
    else if m == "Could not rsa encrypt given value" then Some(CouldNotEncrypt)
    else if m == "RSA private key is not set!" then Some(PrivateKeyNotSet)
    else if m == "Could not base64 decode given value" then Some(CouldNotBase64Decode)
    else if m == "Could not rsa decrypt given value" then Some(CouldNotDecrypt)
    else if m == "Could not convert decrypted data to utf8" then Some(CouldNotConvertToUtf8)
    else if m == "Password not set, inform system administrator" then Some(PasswordNotSet)
    else None
  }

  /** The messages of a failed key load name their errors. */
  lemma LoadMessagesIdentifyErrors(e: RsaError)
    requires e == CannotLoadRsaKeys || e == KeySizeTooSmall || e == PasswordNotSet
    ensures FromMessage(Message(e).value) == Some(e)
  {
  }

  /** The messages of a failed encryption name their errors. */
  lemma EncryptMessagesIdentifyErrors(e: RsaError)
    requires e == PublicKeyNotSet || e == CouldNotEncrypt
    ensures FromMessage(Message(e).value) == Some(e)
  {
  }

  /** The messages of a decryption that fails before the cipher runs name their errors. */
  lemma DecryptInputMessagesIdentifyErrors(e: RsaError)
    requires e == PrivateKeyNotSet || e == CouldNotBase64Decode
    ensures FromMessage(Message(e).value) == Some(e)
  {
  }

  /** The messages of a decryption that fails in or after the cipher name their errors. */
  lemma DecryptOutputMessagesIdentifyErrors(e: RsaError)
    requires e == CouldNotDecrypt || e == CouldNotConvertToUtf8
    ensures FromMessage(Message(e).value) == Some(e)
  {
  }

  /** Every fixed message names exactly one error, so a caller can tell the
      failures apart by their text alone. */
  lemma MessageIdentifiesError(e: RsaError)
    requires Message(e).Some?
    ensures FromMessage(Message(e).value) == Some(e)
  {
    match e
    case CannotLoadRsaKeys | KeySizeTooSmall | PasswordNotSet => LoadMessagesIdentifyErrors(e);
    case PublicKeyNotSet | CouldNotEncrypt => EncryptMessagesIdentifyErrors(e);
    case PrivateKeyNotSet | CouldNotBase64Decode => DecryptInputMessagesIdentifyErrors(e);
    case CouldNotDecrypt | CouldNotConvertToUtf8 => DecryptOutputMessagesIdentifyErrors(e);
  }

  lemma MessagesAreDistinct(e1: RsaError, e2: RsaError)
    requires Message(e1).Some? && Message(e2).Some?
    requires e1 != e2
    ensures Message(e1) != Message(e2)
  {
    MessageIdentifiesError(e1);
    MessageIdentifiesError(e2);
  }
}

=== FILE: io.dfy ===
/** The file system as the program sees it during one operation: the
    contents `read_to_string` returns for a path (or `None` when reading
    fails) and whether `Path::exists` (`present`) holds for it. */
module Io {
  import opened Results

  datatype FileSystem = FileSystem(
    read: string -> Option<string>,
    present: string -> bool)
}

=== FILE: results.dfy ===
/** Failure-carrying values used throughout the model: an optional value,
    a value-or-error result, and a pass/fail outcome for operations that
    return `Result<(), Box<dyn Error>>` in lmtyas. */
module Results {

  datatype Option<+T> = None | Some(value: T)

  datatype Result<+T, +E> = Ok(value: T) | Err(error: E)

  /** The unit-returning result: `Ok(())` is `Pass`. */
  datatype Outcome<+E> = Pass | Fail(error: E)
}

=== FILE: rsa_functions.dfy ===
/** The RSA key custodian: an optional private/public key pair, loaded from
    PEM files with an administrator-supplied passphrase, and used only to
    encrypt a string into base64 text and to decrypt such text back. */
module RsaFunctions {
  import opened Results
  import opened Errors
  import opened Text
  import opened Crypto
  import opened Io

  /** Smallest accepted public modulus, in bytes (2048-bit keys). */
  const MIN_RSA_MODULUS_SIZE: nat := 256

  datatype RsaKeys = RsaKeys(privateKey: Option<PrivateKey>, publicKey: Option<PublicKey>)

  /** The passphrase cell: `None` until the administrator supplies one. */
  datatype RsaPrivateKeyPassword = RsaPrivateKeyPassword(password: Option<seq<byte>>)

  /** The key cell invariant: the keys are installed together, and an
      installed public key has a large enough modulus. */
  predicate Valid(p: Primitives, keys: RsaKeys) {
    && (keys.privateKey.Some? <==> keys.publicKey.Some?)
    && (keys.publicKey.Some? ==> p.publicSize(keys.publicKey.value) >= MIN_RSA_MODULUS_SIZE)
  }

  /** `RsaKeys::new()` and `RsaKeys::default()`. */
  function New(): (keys: RsaKeys)
    ensures keys.privateKey.None? && keys.publicKey.None?
    ensures forall p :: Valid(p, keys)
  {
    RsaKeys(None, None)
  }

  /** Life of the unprotected copy of the passphrase made while loading. */
  datatype CopyState = NotCreated | Live(bytes: seq<byte>) | Zeroized

  /** The key cell after a load attempt, the value returned to the caller,
      and what became of the passphrase copy. */
  datatype KeyLoad = KeyLoad(keys: RsaKeys, outcome: Outcome<RsaError>, passphraseCopy: CopyState)

  /** What a load needs in order to succeed: both files readable, the private
      key parses with the passphrase, the public key parses, and its modulus
      is large enough. */
  predicate LoadPossible(p: Primitives, fs: FileSystem, privatePath: string, publicPath: string,
                         passphrase: seq<byte>)
  {
    && fs.read(privatePath).Some?
    && p.parsePrivate(fs.read(privatePath).value, passphrase).Some?
    && fs.read(publicPath).Some?
    && p.parsePublic(fs.read(publicPath).value).Some?
    && p.publicSize(p.parsePublic(fs.read(publicPath).value).value) >= MIN_RSA_MODULUS_SIZE
  }

  /** `RsaKeys::read_from_files`: every failure leaves the cell as it was;
      only full success replaces both keys at once. The unprotected
      passphrase copy exists once the private key file was read and is
      zeroized on every path after that. */
  function ReadFromFiles(p: Primitives, fs: FileSystem, self: RsaKeys,
                         privatePath: string, publicPath: string,
                         passphrase: seq<byte>): (r: KeyLoad)
    ensures r.outcome.Fail? ==> r.keys == self
    ensures r.outcome.Pass? ==> r.keys.privateKey.Some? && r.keys.publicKey.Some?
    ensures r.outcome.Pass? ==> p.publicSize(r.keys.publicKey.value) >= MIN_RSA_MODULUS_SIZE
    ensures !r.passphraseCopy.Live?
    ensures r.passphraseCopy.NotCreated? <==> fs.read(privatePath).None?
    ensures fs.read(privatePath).Some? && p.parsePrivate(fs.read(privatePath).value, passphrase).Some? ==>
      && (fs.read(publicPath).None? ==> r.outcome == Fail(KeyFileUnreadable))
      && (fs.read(publicPath).Some? && p.parsePublic(fs.read(publicPath).value).None? ==>
            r.outcome == Fail(PublicKeyUnparsable))
  {
    match fs.read(privatePath)
    case None => KeyLoad(self, Fail(KeyFileUnreadable), NotCreated)
    case Some(privatePem) =>
      var copy := Live(passphrase);
      match p.parsePrivate(privatePem, copy.bytes)
      case None => KeyLoad(self, Fail(CannotLoadRsaKeys), Zeroized)
      case Some(privateKey) =>
        var copy := Zeroized;
        match fs.read(publicPath)
        case None => KeyLoad(self, Fail(KeyFileUnreadable), copy)
        case Some(publicPem) =>
          match p.parsePublic(publicPem)
          case None => KeyLoad(self, Fail(PublicKeyUnparsable), copy)
          case Some(publicKey) =>
            if p.publicSize(publicKey) < MIN_RSA_MODULUS_SIZE then
              KeyLoad(self, Fail(KeySizeTooSmall), copy)
            else
              KeyLoad(RsaKeys(Some(privateKey), Some(publicKey)), Pass, copy)
  }

  /** `encrypt_str`: PKCS#1 encryption of the UTF-8 bytes into a buffer of
      the public modulus size, returned as base64 text. */
  function EncryptStr(p: Primitives, keys: RsaKeys, plaintext: string): (r: Result<string, RsaError>)
    ensures r == Err(PublicKeyNotSet) <==> keys.publicKey.None?
    ensures r == Err(CouldNotEncrypt) <==>
      keys.publicKey.Some? && p.encrypt(keys.publicKey.value, p.utf8Encode(plaintext)).None?
    ensures r.Err? ==> r.error == PublicKeyNotSet || r.error == CouldNotEncrypt
    ensures r.Ok? <==>
      keys.publicKey.Some? && p.encrypt(keys.publicKey.value, p.utf8Encode(plaintext)).Some?
    ensures r.Ok? ==> exists block ::
      |block| == p.publicSize(keys.publicKey.value) && r.value == p.base64Encode(block)
  {
    if keys.publicKey.None? then Err(PublicKeyNotSet)
    else
      var publicKey := keys.publicKey.value;
      var buf := Zeros(p.publicSize(publicKey));
      match p.encrypt(publicKey, p.utf8Encode(plaintext))
      case None => Err(CouldNotEncrypt)
      case Some(ciphertext) =>
        var block := Overlay(buf, ciphertext);
        Ok(p.base64Encode(block))
  }

  /** `decrypt_str`: checks in order that a private key is set, that the
      input is base64, that it decrypts, and that the decrypted buffer is
      UTF-8; the text is returned without NULs at either end. */
  function DecryptStr(p: Primitives, keys: RsaKeys, encrypted: string): (r: Result<string, RsaError>)
    ensures r == Err(PrivateKeyNotSet) <==> keys.privateKey.None?
    ensures r == Err(CouldNotBase64Decode) <==>
      keys.privateKey.Some? && p.base64Decode(encrypted).None?
    ensures r == Err(CouldNotDecrypt) <==>
      keys.privateKey.Some? && p.base64Decode(encrypted).Some? &&
      p.decrypt(keys.privateKey.value, p.base64Decode(encrypted).value).None?
    ensures r.Err? ==> r.error in {PrivateKeyNotSet, CouldNotBase64Decode, CouldNotDecrypt, CouldNotConvertToUtf8}
    ensures r.Ok? <==>
      && keys.privateKey.Some?
      && p.base64Decode(encrypted).Some?
      && p.decrypt(keys.privateKey.value, p.base64Decode(encrypted).value).Some?
      && p.utf8Decode(Overlay(Zeros(p.privateSize(keys.privateKey.value)),
                              p.decrypt(keys.privateKey.value, p.base64Decode(encrypted).value).value)).Some?
    ensures r.Ok? ==> NoEdgeNul(r.value)
  {
    if keys.privateKey.None? then Err(PrivateKeyNotSet)
    else
      match p.base64Decode(encrypted)
      case None => Err(CouldNotBase64Decode)
      case Some(raw) =>
        var privateKey := keys.privateKey.value;
        var buf := Zeros(p.privateSize(privateKey));
        match p.decrypt(privateKey, raw)
        case None => Err(CouldNotDecrypt)
        case Some(plain) =>
          match p.utf8Decode(Overlay(buf, plain))
          case None => Err(CouldNotConvertToUtf8)
          case Some(text) => Ok(TrimNuls(text))
  }
}

=== FILE: rsa_properties.dfy ===
/** Properties of the key custodian that relate several calls or several
    interpretations of the primitives: when a load succeeds, that a failed
    load changes nothing, the order in which decryption checks its input,
    and the encrypt/decrypt round trip. */
module RsaProperties {
  import opened Results
  import opened Errors
  import opened Text
  import opened Crypto
  import opened Io
  import opened RsaFunctions

  /** A load succeeds exactly when every step can succeed, and then installs
      the two keys parsed from the files. */
  lemma ReadFromFilesSucceedsIff(p: Primitives, fs: FileSystem, self: RsaKeys,
                                 privatePath: string, publicPath: string, passphrase: seq<byte>)
    ensures var r := ReadFromFiles(p, fs, self, privatePath, publicPath, passphrase);
      && (r.outcome.Pass? <==> LoadPossible(p, fs, privatePath, publicPath, passphrase))
      && (r.outcome.Pass? ==> r.keys == RsaKeys(
            p.parsePrivate(fs.read(privatePath).value, passphrase),
            p.parsePublic(fs.read(publicPath).value)))
  {
  }

  /** A load never breaks the key cell invariant. */
  lemma ReadFromFilesPreservesValid(p: Primitives, fs: FileSystem, self: RsaKeys,
                                    privatePath: string, publicPath: string, passphrase: seq<byte>)
    requires Valid(p, self)
    ensures Valid(p, ReadFromFiles(p, fs, self, privatePath, publicPath, passphrase).keys)
  {
  }

  /** A public key below the minimum modulus size is rejected with its own
      error, and a previously loaded pair stays in place. */
  lemma SmallModulusIsRejected(p: Primitives, fs: FileSystem, self: RsaKeys,
                               privatePath: string, publicPath: string, passphrase: seq<byte>)
    requires fs.read(privatePath).Some?
    requires p.parsePrivate(fs.read(privatePath).value, passphrase).Some?
    requires fs.read(publicPath).Some?
    requires p.parsePublic(fs.read(publicPath).value).Some?
    requires p.publicSize(p.parsePublic(fs.read(publicPath).value).value) < MIN_RSA_MODULUS_SIZE
    ensures ReadFromFiles(p, fs, self, privatePath, publicPath, passphrase)
      == KeyLoad(self, Fail(KeySizeTooSmall), Zeroized)
  {
  }

  /** The errors of a load appear in the order of the steps: an unreadable
      private key file first, then a wrong passphrase, before the public key
      file is even looked at. */
  lemma ReadFromFilesErrorOrder(p: Primitives, fs: FileSystem, self: RsaKeys,
                                privatePath: string, publicPath: string, passphrase: seq<byte>,
                                fs': FileSystem)
    requires fs'.read(privatePath) == fs.read(privatePath)
    requires fs.read(privatePath).None? ||
             p.parsePrivate(fs.read(privatePath).value, passphrase).None?
    ensures ReadFromFiles(p, fs, self, privatePath, publicPath, passphrase)
         == ReadFromFiles(p, fs', self, privatePath, publicPath, passphrase)
    ensures ReadFromFiles(p, fs, self, privatePath, publicPath, passphrase).outcome
         == (if fs.read(privatePath).None? then Fail(KeyFileUnreadable) else Fail(CannotLoadRsaKeys))
  {
  }

  /** Loading from the same files with the same passphrase a second time
      leaves the key cell as the first load left it. */
  lemma ReadFromFilesIdempotent(p: Primitives, fs: FileSystem, self: RsaKeys,
                                privatePath: string, publicPath: string, passphrase: seq<byte>)
    ensures var once := ReadFromFiles(p, fs, self, privatePath, publicPath, passphrase).keys;
      ReadFromFiles(p, fs, once, privatePath, publicPath, passphrase).keys == once
  {
  }

  /** Without a public key, encryption fails the same way whatever the
      encryption primitive does: it is never consulted. */
  lemma EncryptWithoutKeyNeverEncrypts(p: Primitives, keys: RsaKeys, plaintext: string,
                                       encrypt: (PublicKey, seq<byte>) -> Option<seq<byte>>)
    requires keys.publicKey.None?
    ensures EncryptStr(p.(encrypt := encrypt), keys, plaintext) == EncryptStr(p, keys, plaintext)
  {
  }

  /** Without a private key, decryption fails before base64 decoding: the
      result does not depend on the decoder, the decryption or the UTF-8
      check. */
  lemma DecryptWithoutKeyDecodesNothing(p: Primitives, keys: RsaKeys, encrypted: string, q: Primitives)
    requires keys.privateKey.None?
    ensures DecryptStr(q, keys, encrypted) == DecryptStr(p, keys, encrypted) == Err(PrivateKeyNotSet)
  {
  }

  /** Invalid base64 fails before any decryption: the result does not depend
      on the decryption primitive or the UTF-8 check. */
  lemma DecryptBadBase64NeverDecrypts(p: Primitives, keys: RsaKeys, encrypted: string,
                                      decrypt: (PrivateKey, seq<byte>) -> Option<seq<byte>>,
                                      utf8Decode: seq<byte> -> Option<string>)
    requires keys.privateKey.Some?
    requires p.base64Decode(encrypted).None?
    ensures DecryptStr(p.(decrypt := decrypt, utf8Decode := utf8Decode), keys, encrypted)
         == DecryptStr(p, keys, encrypted) == Err(CouldNotBase64Decode)
  {
  }

  /** Decryption reports the UTF-8 error exactly when all earlier checks
      pass and the decrypted, zero-padded buffer is not UTF-8. */
  lemma DecryptUtf8ErrorIff(p: Primitives, keys: RsaKeys, encrypted: string)
    ensures DecryptStr(p, keys, encrypted) == Err(CouldNotConvertToUtf8) <==>
      && keys.privateKey.Some?
      && p.base64Decode(encrypted).Some?
      && p.decrypt(keys.privateKey.value, p.base64Decode(encrypted).value).Some?
      && p.utf8Decode(Overlay(Zeros(p.privateSize(keys.privateKey.value)),
                              p.decrypt(keys.privateKey.value, p.base64Decode(encrypted).value).value)).None?
  {
  }

  /** Decrypting the base64 text of a ciphertext that the private key
      decrypts to the UTF-8 bytes of `plaintext` gives back the plaintext
      without NULs at its ends: the zero padding of the decryption buffer
      decodes to NULs, and trimming removes them. */
  lemma DecryptOfCiphertext(p: Primitives, keys: RsaKeys, ciphertext: seq<byte>, plaintext: string)
    requires Base64RoundTrips(p) && Utf8ZeroPadded(p)
    requires keys.privateKey.Some?
    requires p.decrypt(keys.privateKey.value, ciphertext) == Some(p.utf8Encode(plaintext))
    requires |p.utf8Encode(plaintext)| <= p.privateSize(keys.privateKey.value)
    ensures DecryptStr(p, keys, p.base64Encode(ciphertext)) == Ok(TrimNuls(plaintext))
  {
    var bytes := p.utf8Encode(plaintext);
    var n := p.privateSize(keys.privateKey.value) - |bytes|;
    assert p.base64Decode(p.base64Encode(ciphertext)) == Some(ciphertext);
    OverlayOnZeros(p.privateSize(keys.privateKey.value), bytes);
    assert p.utf8Decode(bytes + Zeros(n)) == Some(plaintext + Nuls(n));
    TrimNulsIgnoresPadding(0, plaintext, n);
    assert Nuls(0) + plaintext + Nuls(n) == plaintext + Nuls(n);
  }

  /** Decrypting what was encrypted with a matching key pair gives back the
      plaintext without NULs at its ends, together with any NULs the
      plaintext itself started or ended with. */
  lemma DecryptEncryptRoundTrip(p: Primitives, keys: RsaKeys, plaintext: string)
    requires Base64RoundTrips(p) && Utf8ZeroPadded(p)
    requires keys.privateKey.Some? && keys.publicKey.Some?
    requires KeyPair(p, keys.privateKey.value, keys.publicKey.value)
    requires p.encrypt(keys.publicKey.value, p.utf8Encode(plaintext)).Some?
    ensures DecryptStr(p, keys, EncryptStr(p, keys, plaintext).value) == Ok(TrimNuls(plaintext))
  {
    var publicKey := keys.publicKey.value;
    var ciphertext := p.encrypt(publicKey, p.utf8Encode(plaintext)).value;
    assert Overlay(Zeros(p.publicSize(publicKey)), ciphertext) == ciphertext;
    assert EncryptStr(p, keys, plaintext) == Ok(p.base64Encode(ciphertext));
    DecryptOfCiphertext(p, keys, ciphertext, plaintext);
  }

  /** The round trip is exact for every plaintext that does not start or
      end with NUL, and loses exactly the edge NULs otherwise. */
  lemma DecryptEncryptExactIff(p: Primitives, keys: RsaKeys, plaintext: string)
    requires Base64RoundTrips(p) && Utf8ZeroPadded(p)
    requires keys.privateKey.Some? && keys.publicKey.Some?
    requires KeyPair(p, keys.privateKey.value, keys.publicKey.value)
    requires p.encrypt(keys.publicKey.value, p.utf8Encode(plaintext)).Some?
    ensures DecryptStr(p, keys, EncryptStr(p, keys, plaintext).value) == Ok(plaintext)
        <==> NoEdgeNul(plaintext)
  {
    DecryptEncryptRoundTrip(p, keys, plaintext);
    if NoEdgeNul(plaintext) {
      TrimNulsKeepsClean(plaintext);
    }
  }
}

=== FILE: text.dfy ===
/** Character-level string helpers: removal of NUL characters at both ends
    of a string (Rust's `trim_matches(char::from(0))`), search for the first
    occurrence of a character, and splitting/joining on a separator
    character (Rust's `split_once`, `split` and `join`). */
module Text {
  import opened Results

  const NUL: char := 0 as char

  /** A string of `n` NUL characters. */
  function Nuls(n: nat): (s: string)
    ensures |s| == n
    ensures forall k :: 0 <= k < n ==> s[k] == NUL
  {
    seq(n, _ => NUL)
  }

  /** Neither the first nor the last character is NUL. */
  predicate NoEdgeNul(s: string) {
    |s| == 0 || (s[0] != NUL && s[|s| - 1] != NUL)
  }

  /** Number of NUL characters that start `s`. */
  function LeadingNuls(s: string): (n: nat)
    ensures n <= |s|
    ensures forall k :: 0 <= k < n ==> s[k] == NUL
    ensures n < |s| ==> s[n] != NUL
  {
    if |s| > 0 && s[0] == NUL then 1 + LeadingNuls(s[1..]) else 0
  }

  /** Number of NUL characters that end `s`. */
  function TrailingNuls(s: string): (n: nat)
    ensures n <= |s|
    ensures forall k :: |s| - n <= k < |s| ==> s[k] == NUL
    ensures n < |s| ==> s[|s| - 1 - n] != NUL
  {
    if |s| > 0 && s[|s| - 1] == NUL then 1 + TrailingNuls(s[..|s| - 1]) else 0
  }

  /** `s[i..j]` is what is left after removing every NUL at both ends of `s`:
      the cut-off parts are all NUL and the kept part has no NUL at its ends. */
  ghost predicate IsNulTrimming(s: string, i: nat, j: nat) {
    && i <= j <= |s|
    && (forall k :: 0 <= k < i ==> s[k] == NUL)
    && (forall k :: j <= k < |s| ==> s[k] == NUL)
    && NoEdgeNul(s[i..j])
  }

  /** The bounds of the part that survives trimming. */
  function TrimBounds(s: string): (b: (nat, nat))
    ensures IsNulTrimming(s, b.0, b.1)
  {
    var i := LeadingNuls(s);
    if i == |s| then (i, i)
    else
      var n := TrailingNuls(s);
      assert s[i] != NUL && n < |s| - i;
      (i, |s| - n)
  }

  /** `trim_matches(char::from(0))`: strip NUL characters from both ends. */
  function TrimNuls(s: string): (r: string)
    ensures NoEdgeNul(r)
    ensures |r| <= |s|
  {
    var b := TrimBounds(s);
    s[b.0..b.1]
  }

  /** There is only one way to trim: any split of `s` into a NUL prefix, a
      part without edge NULs and a NUL suffix keeps the same part. */
  lemma NulTrimmingIsUnique(s: string, i: nat, j: nat, i': nat, j': nat)
    requires IsNulTrimming(s, i, j) && IsNulTrimming(s, i', j')
    ensures s[i..j] == s[i'..j']
  {
    if i < j {
      assert s[i..j][0] == s[i] && s[i..j][j - i - 1] == s[j - 1];
    }
    if i' < j' {
      assert s[i'..j'][0] == s[i'] && s[i'..j'][j' - i' - 1] == s[j' - 1];
    }
  }

  /** `TrimNuls` computes the one trimming of `s`. */
  lemma TrimNulsIsTheTrimming(s: string, i: nat, j: nat)
    requires IsNulTrimming(s, i, j)
    ensures TrimNuls(s) == s[i..j]
  {
    var b := TrimBounds(s);
    NulTrimmingIsUnique(s, b.0, b.1, i, j);
  }

  /** Trimming keeps a string that has no NUL at its ends. */
  lemma TrimNulsKeepsClean(s: string)
    requires NoEdgeNul(s)
    ensures TrimNuls(s) == s
  {
    assert s[0..|s|] == s;
    TrimNulsIsTheTrimming(s, 0, |s|);
  }

  /** Trimming is idempotent. */
  lemma TrimNulsIdempotent(s: string)
    ensures TrimNuls(TrimNuls(s)) == TrimNuls(s)
  {
    TrimNulsKeepsClean(TrimNuls(s));
  }

  /** A trimming of `x` is, shifted by `a`, a trimming of `x` padded with
      `a` NULs in front and `b` behind. */
  lemma PaddingKeepsTrimming(a: nat, x: string, b: nat, i: nat, j: nat)
    requires IsNulTrimming(x, i, j)
    ensures var s := Nuls(a) + x + Nuls(b);
      IsNulTrimming(s, a + i, a + j) && s[a + i..a + j] == x[i..j]
  {
    var s := Nuls(a) + x + Nuls(b);
    assert forall k :: 0 <= k < |x| ==> s[a + k] == x[k];
    assert s[a + i..a + j] == x[i..j];
  }

  /** NUL padding added at either end is removed by trimming. */
  lemma TrimNulsIgnoresPadding(a: nat, x: string, b: nat)
    ensures TrimNuls(Nuls(a) + x + Nuls(b)) == TrimNuls(x)
  {
    var t := TrimBounds(x);
    PaddingKeepsTrimming(a, x, b, t.0, t.1);
    TrimNulsIsTheTrimming(Nuls(a) + x + Nuls(b), a + t.0, a + t.1);
  }

  /** Position of the first `c` in `s`, if any. */
  function IndexOf(s: string, c: char): (r: Option<nat>)
    ensures r.Some? ==> r.value < |s| && s[r.value] == c
    ensures r.Some? ==> forall k :: 0 <= k < r.value ==> s[k] != c
    ensures r.None? <==> c !in s
  {
    if |s| == 0 then None
    else if s[0] == c then Some(0)
    else
      match IndexOf(s[1..], c)
      case None => None
      case Some(k) =>
        Some(k + 1)
  }

  /** The first `c` after a part without `c` is found right after that part. */
  lemma IndexOfAfterFreePart(a: string, c: char, b: string)
    requires c !in a
    ensures IndexOf(a + [c] + b, c) == Some(|a|)
  {
    var s := a + [c] + b;
    assert s[|a|] == c;
    assert forall k :: 0 <= k < |a| ==> s[k] == a[k];
  }

  /** A string is the part before position `i`, the character there, and the rest. */
  lemma SplitAround(s: string, i: nat)
    requires i < |s|
    ensures s == s[..i] + [s[i]] + s[i + 1..]
  {
    assert s[i..] == [s[i]] + s[i + 1..];
    assert s == s[..i] + s[i..];
  }

  /** One step of `Split`: the part before the first separator, then the
      split of what follows it. */
  lemma SplitStep(s: string, c: char, i: nat)
    requires IndexOf(s, c) == Some(i)
    ensures Split(s, c) == [s[..i]] + Split(s[i + 1..], c)
  {
  }

  /** Rust's `split(c)`: the parts between the occurrences of `c`, in order. */
  function Split(s: string, c: char): (parts: seq<string>)
    ensures |parts| >= 1
    decreases |s|
  {
    match IndexOf(s, c)
    case None => [s]
    case Some(i) => [s[..i]] + Split(s[i + 1..], c)
  }

  /** Rust's `join`: the parts with one `c` between consecutive ones. */
  function Join(parts: seq<string>, c: char): string {
    if |parts| == 0 then ""
    else if |parts| == 1 then parts[0]
    else parts[0] + [c] + Join(parts[1..], c)
  }

  /** Every part of a split is free of the separator. */
  lemma {:induction false} SplitPartsAreFree(s: string, c: char)
    ensures forall k :: 0 <= k < |Split(s, c)| ==> c !in Split(s, c)[k]
    decreases |s|
  {
    match IndexOf(s, c)
    case None =>
    case Some(i) =>
      SplitPartsAreFree(s[i + 1..], c);
  }

  /** Joining a part in front of at least one more part puts one separator between. */
  lemma JoinCons(first: string, rest: seq<string>, c: char)
    requires |rest| >= 1
    ensures Join([first] + rest, c) == first + [c] + Join(rest, c)
  {
    assert ([first] + rest)[1..] == rest;
  }

  /** The join of the parts from position `k` on starts with part `k` and a separator. */
  lemma JoinFrom(parts: seq<string>, k: nat, c: char)
    requires k + 1 < |parts|
    ensures Join(parts[k..], c) == parts[k] + [c] + Join(parts[k + 1..], c)
  {
    assert parts[k..] == [parts[k]] + parts[k + 1..];
    JoinCons(parts[k], parts[k + 1..], c);
  }

  /** Joining the parts of a split gives back the string. */
  lemma {:induction false} JoinSplit(s: string, c: char)
    ensures Join(Split(s, c), c) == s
    decreases |s|
  {
    var r := IndexOf(s, c);
    if r.Some? {
      var i := r.value;
      var rest := s[i + 1..];
      SplitStep(s, c, i);
      JoinSplit(rest, c);
      JoinCons(s[..i], Split(rest, c), c);
      SplitAround(s, i);
    }
  }

  /** Splitting a join of separator-free parts gives back the parts. */
  lemma {:induction false} SplitJoin(parts: seq<string>, c: char)
    requires |parts| >= 1
    requires forall k :: 0 <= k < |parts| ==> c !in parts[k]
    ensures Split(Join(parts, c), c) == parts
  {
    if |parts| > 1 {
      var rest := Join(parts[1..], c);
      IndexOfAfterFreePart(parts[0], c, rest);
      var s := parts[0] + [c] + rest;
      assert s[..|parts[0]|] == parts[0];
      assert s[|parts[0]| + 1..] == rest;
      SplitJoin(parts[1..], c);
      assert [parts[0]] + parts[1..] == parts;
    } else {
      assert IndexOf(parts[0], c).None?;
    }
  }

  predicate StartsWith(s: string, prefix: string) {
    |prefix| <= |s| && s[..|prefix|] == prefix
  }

  predicate EndsWith(s: string, suffix: string) {
    |suffix| <= |s| && s[|s| - |suffix|..] == suffix
  }
}
